=== FILE: README.md ===
# smally: compress, compare and replace, in Dafny

smally compresses JPEG, PNG and GIF files losslessly in place. It runs an external
encoder, keeps whichever file is smallest, and keeps the original modification
time. This project models the per-file protocol of `smally.py`:

- **`jpegtran`** (module `Jpeg`). Two encoder runs write `<p>.smally.baseline` and
  `<p>.smally.progressive`. `Select` picks the original, the baseline candidate or
  the progressive candidate, with smally.py's tie-breaks. A remove/rename
  sequence (`Plan`) puts the winner in place. `touch` then writes back the mtime
  read before the first removal.
- **`make_choice`** (module `Choice`), shared by optipng and gifsicle. One
  encoder run writes `<p>.smally`. The candidate replaces the original exactly
  when the two sizes differ.
- **Failure handlers** (`Recover`, `ChoiceRecover`). Both run on any failure,
  repair the directory, and re-raise.
- **Command-line dispatch** (module `Cli`). The detected file type and the
  `-j/-p/-g` flags decide on one compressor, a directory walk, or exit code 1 or 2.
  The module also covers the flag string handed to child processes and the worker
  count `min(cpu_count, P)`.

The directory is an immutable map from path to `Entry(content, mtime)`. A size is
the length of the content. The mtime is the opaque token `stat -c "%y"` prints.
Every destructive sequence is a `seq<Step>` (`Remove`, `Discard`, `Rename`,
`Touch`) run by `FileSystem.Exec`, which stops at the first step that raises.
`Discard` is an `os.remove` whose FileNotFoundError is swallowed. A Python exception
raised from outside, such as KeyboardInterrupt, is modelled as
`InterruptAfter(k)`: the first `k` steps ran, then the `except BaseException`
handler ran. A process killed by a signal runs no handler (see below). The main
lemmas quantify over every `k`.

Encoder outputs (`Output`), the format inspector's answer (`isProgressive`) and
the mtime new files get (`now`) are parameters. Paths are absolute and normalised,
so smally.py's `wd + '/' + basename` is the path itself.

Behaviour of smally.py worth knowing, each stated by a lemma:

- `make_choice` replaces the original whenever the sizes differ, so a file can
  grow and `saved = size_2 - size_1` can be positive (`MakeChoiceReturns`).
- An empty encoder output is not treated as a failure. It has the smallest size,
  so the file at the path ends up empty, and the report claims the whole
  original size as saved (`Jpeg.EmptyOutputWins`, `Choice.EmptyCandidateWins`).
- The `jpegtran` handler ends with `os.rename(file_1, pathname)` outside any
  FileNotFoundError guard. When none of the three files exists, that error
  replaces the original failure (`JpegTranLeavesOneFile`, second conjunct).
- The handlers never run `touch`. Any interruption after the original is removed
  and before `touch` leaves the winner exactly as its encoder wrote it, with the
  encoder's mtime instead of the original one
  (`InterruptedKeepsEncoderMtime`, `ChoiceInterruptedKeepsEncoderMtime`). So
  `ReplaceConverges` and `ChoicePlanConverges` state only the content for those
  prefixes. The full sequence does restore the mtime.
- A candidate file left over from an earlier run is read as that candidate when
  its encoder writes nothing. If it is the smallest of the three, it replaces the
  original (`StaleProgressiveWins`).
- The selection and the `jpegtran` handler break ties the same way: the strictly
  smaller candidate wins, and on a tie the progressive one wins. So an
  interrupted replace always finishes with the intended winner
  (`CandidatePlanConverges`).
- A process killed by a signal (SIGKILL, SIGTERM with its default action) runs
  no handler. Killed just after the original is removed, it leaves no file at
  the path, only the candidates (`KilledAfterFirstRemoval`,
  `ChoiceKilledAfterRemoval`). No later smally invocation repairs that state:
  - A rerun on the path exits with status 2, because `file` cannot open the
    missing file, so the detected type is not supported (`Cli.Dispatch`).
  - A directory walk never lists the missing original. It lists the leftover
    candidates, and they are compressed as originals.

  Only a direct Python call of `jpegtran(p)` or `optipng(p)`/`gifsicle(p)` on
  that path runs the handler on it. `RecoverCases` and `ChoiceRecoverCases`
  describe what that handler then does.
- Temporary names of the same kind never coincide for different originals. A
  path is another original's temporary name exactly when it ends in that suffix
  (`TempNameOf`). So a directory walk can list a `.smally` file, whether a
  killed run left it behind or another worker is still writing it. That file is
  then compressed as an original, and removed or replaced while its owner may
  still need it.

## Model

| member | source | states |
|---|---|---|
| Paths.BaselineTemp | smally.py:54 | no contract of its own: `<p>.smally.baseline`; stated by `TempNamesDistinct`, `TempKindsNeverCollide`, `TempNamesInjective` and `TempNameOf` |
| Paths.ProgressiveTemp | smally.py:59 | no contract of its own: `<p>.smally.progressive`; stated by `TempNamesDistinct`, `TempKindsNeverCollide`, `TempNamesInjective` and `TempNameOf` |
| Paths.ChoiceTemp | smally.py:130 | no contract of its own: `<p>.smally`; stated by `TempNamesDistinct`, `TempKindsNeverCollide`, `TempNamesInjective` and `TempNameOf` |
| Paths.TempNamesDistinct | smally.py:51-59 | no temporary name equals the original, and the baseline, progressive and single-candidate names are pairwise distinct |
| Paths.TempKindsNeverCollide | smally.py:54-59 | temporary names of different kinds never coincide, even across different originals |
| Paths.TempNamesInjective | smally.py:128-130 | two different originals never share a temporary name of the same kind |
| Paths.TempNameOf | smally.py:54-59 | a path is some original's temporary name of a given kind exactly when it ends in that kind's suffix, and the original is then the path without the suffix |
| FileSystem.Emit | smally.py:55-62 | an encoder run writes its output file with the current time as mtime, or leaves the directory exactly as it was, and touches no other path |
| FileSystem.Perform | smally.py:76-94 | the directory is the one the steps before the exception reached (all of them when it comes after the last step or never), and the sequence completes exactly when no exception cuts it and none of its steps raises |
| FileSystem.Apply | smally.py:79-94 | a remove, rename or touch changes no path other than the ones it names; it raises FileNotFoundError exactly when it removes or renames a missing file, and then changes nothing |
| FileSystem.Exec | smally.py:78-91 | running a step sequence changes no path outside the names its steps mention |
| FileSystem.ExecSnoc | smally.py:78-91 | running one more step after a sequence is the same as running the longer sequence |
| Jpeg.JpegTran | smally.py:47-117 | no contract of its own: `jpegtran(pathname)`; its behaviour is stated by `JpegTranReturns`, `JpegTranCompletes`, `JpegTranInterrupted`, `JpegTranToolFailure`, `JpegTranLeavesOneFile`, `EmptyOutputWins`, `InterruptedKeepsEncoderMtime` and `StaleProgressiveWins` |
| Jpeg.Encoded | smally.py:53-62 | both encoder runs change only the two candidate names, and the original stays as it was |
| Jpeg.Plan | smally.py:78-94 | no contract of its own: the rm/mv/touch sequence per winner; stated by `OriginalPrefix`, `SwapPrefix`, `PlanRuns` and the converge lemmas |
| Jpeg.Swap | smally.py:82-94 | no contract of its own: the sequence of a winning candidate; stated by `SwapPrefix` |
| Jpeg.RecoverySteps | smally.py:96-117 | no contract of its own: the handler's branches as steps; stated by `RecoverCases` and `RecoverKeepsOriginal` |
| Jpeg.Recover | smally.py:96-117 | no contract of its own: the handler; stated by `RecoverCases`, `RecoverKeepsOriginal` and `RecoverIdempotent` |
| Jpeg.Abort | smally.py:96-117 | no contract of its own: the handler, then `raise`; when the handler's own unguarded `os.rename(file_1, pathname)` raises FileNotFoundError, that error replaces the original one; stated by `JpegTranLeavesOneFile`, `JpegTranInterrupted` and `JpegTranToolFailure` |
| Jpeg.Select | smally.py:66-74 | the winner's size is `min(size, size_1, size_2)`; baseline wins iff it is strictly smaller than both others; progressive wins iff it is strictly smaller than the original and no larger than baseline, or it ties the original, is no larger than baseline, and the original is not progressive; otherwise the original is kept |
| Jpeg.RecoverCases | smally.py:96-117 | with the original present the handler only deletes the candidates that exist and keeps the original as it was; without it, the strictly smaller candidate (progressive on a tie), or the only one left, is renamed into place; with nothing left the handler itself raises FileNotFoundError for the baseline name; on success no candidate remains and no other path changes |
| Jpeg.RecoverIdempotent | smally.py:96-117 | running the handler a second time, on whatever state the first run left, gives the same outcome again |
| Jpeg.OriginalPlanConverges | smally.py:78-81 | when the original wins, every prefix of the deletions plus the handler leaves exactly the original and no candidate |
| Jpeg.OriginalPrefix | smally.py:78-80 | when the original wins, no deletion fails, and after `k` of them exactly the first `k` candidates are gone |
| Jpeg.SwapPrefix | smally.py:82-94 | when a candidate wins, no step fails; after 1, 2, 3 and 4 steps the original is gone, then the loser too, then the winner sits at the path with its own mtime, then with the original mtime |
| Jpeg.PlanRuns | smally.py:78-94 | with all three files present, no step of any winner's sequence raises |
| Jpeg.RecoverKeepsOriginal | smally.py:98-102 | with the original in place, the handler deletes both candidate names, tolerating their absence, and changes nothing else |
| Jpeg.CandidatePlanConverges | smally.py:82-117 | when a candidate wins, interrupting after any step and running the handler leaves the intended winner at the path (the original if no step ran) and no candidate, because the handler's size rule agrees with the selection |
| Jpeg.ReplaceConverges | smally.py:76-117 | for any winner and any prefix of its sequence: the full sequence leaves only the winner, carrying the original mtime; after the handler exactly one file is at the path, with the winner's content (or the original's if nothing ran), no candidate, and nothing else changed |
| Jpeg.JpegTranReturns | smally.py:47-95 | an uninterrupted run returns `(min(size, size_1, size_2) - size, size)`, so saved <= 0; only the path remains of the three, with the selected variant's content and the original mtime; a kept original is untouched; no other path changes |
| Jpeg.JpegTranCompletes | smally.py:66-95 | without interruption the sequence runs to its end, and the report is the smallest of the three sizes minus the original size, paired with the original size |
| Jpeg.JpegTranInterrupted | smally.py:76-117 | a failure after any `k` steps is re-raised unchanged, and the directory is left with exactly one file at the path holding the intended winner (or the original when no step ran) and no candidate |
| Jpeg.EmptyOutputWins | smally.py:66-95 | when the baseline output is empty, the call returns `(-size, size)` and the file at the path ends up empty: the empty baseline wins, or an empty progressive output wins over it, or an empty original is kept |
| Jpeg.KilledAfterFirstRemoval | smally.py:82-90 | a kill with no handler right after a candidate's first step leaves no file at the path and both candidates present |
| Jpeg.InterruptedKeepsEncoderMtime | smally.py:82-117 | after an exception between the first removal and `touch`, the file at the path is the winning candidate exactly as its encoder wrote it, with the encoder's mtime |
| Jpeg.StaleProgressiveWins | smally.py:59-91 | when the progressive encoder writes nothing, a leftover progressive file that is the smallest of the three replaces the original |
| Jpeg.JpegTranToolFailure | smally.py:53-102 | when an encoder left no readable candidate, the FileNotFoundError of the first missing candidate is re-raised, the original is untouched and both candidate names are gone |
| Jpeg.JpegTranLeavesOneFile | smally.py:47-117 | whatever the encoders wrote and wherever the interruption lands, a call that found any of the three files ends with exactly one file at the path, no candidate, and nothing else changed; with none of them the handler's own FileNotFoundError for the baseline name is raised |
| Choice.MakeChoice | smally.py:126-153 | no contract of its own: `make_choice(cmd)(pathname)`; its behaviour is stated by `MakeChoiceReturns`, `MakeChoiceInterrupted`, `MakeChoiceToolFailure`, `MakeChoiceLeavesOneFile`, `EmptyCandidateWins` and `ChoiceInterruptedKeepsEncoderMtime` |
| Choice.ChoiceEncoded | smally.py:131-132 | the encoder run changes only `.smally`, and the original stays as it was |
| Choice.ChoicePlan | smally.py:135-143 | no contract of its own: the remove or the remove/rename/touch sequence; stated by `ChoicePrefix` |
| Choice.ChoiceRecoverySteps | smally.py:145-153 | no contract of its own: the handler's branches as steps; stated by `ChoiceRecoverCases` |
| Choice.ChoiceRecover | smally.py:145-153 | no contract of its own: the handler; stated by `ChoiceRecoverCases` and `ChoiceRecoverIdempotent` |
| Choice.ChoiceAbort | smally.py:145-153 | no contract of its own: the handler, whose FileNotFoundError is swallowed, then `raise` of the original error; stated by `MakeChoiceLeavesOneFile`, `MakeChoiceInterrupted` and `MakeChoiceToolFailure` |
| Choice.ChoiceRecoverCases | smally.py:145-153 | the handler never fails: with the original present it removes `.smally` if present, otherwise it renames `.smally` onto the path, and with neither it does nothing |
| Choice.ChoiceRecoverIdempotent | smally.py:145-153 | a second application of the handler changes nothing, from any state |
| Choice.ChoicePrefix | smally.py:135-143 | no step of either sequence fails; after `k` steps of the replacing one the original is gone, then the candidate sits at the path, then with the original mtime; the other one only deletes the candidate |
| Choice.ChoicePlanConverges | smally.py:135-153 | after any prefix of either sequence plus the handler: one file at the path, no `.smally`, with the candidate's content if it was to replace and a step ran, else the untouched original; the full replace sequence restores the original mtime |
| Choice.MakeChoiceReturns | smally.py:126-144 | an uninterrupted run returns `(size_2 - size_1, size_1)`; it replaces the original iff the sizes differ, even when the candidate is larger; the mtime is kept; on equal sizes the candidate is deleted and the original untouched |
| Choice.MakeChoiceInterrupted | smally.py:138-153 | a failure after any `k` steps is re-raised unchanged, with one file at the path (the candidate if a replacing step ran, else the original) and no `.smally` |
| Choice.MakeChoiceToolFailure | smally.py:131-153 | when the encoder wrote no candidate, the directory is exactly as before and FileNotFoundError for `.smally` is re-raised |
| Choice.MakeChoiceLeavesOneFile | smally.py:126-153 | for every outcome: if the original or the candidate existed, one file is at the path and no `.smally` remains, with nothing else changed; a raised error is always the original failure |
| Choice.EmptyCandidateWins | smally.py:133-144 | an empty encoder output replaces the original with zero bytes, and the report is `(-size_1, size_1)` |
| Choice.ChoiceKilledAfterRemoval | smally.py:141-142 | a kill with no handler right after the original is removed leaves no file at the path, only `.smally` |
| Choice.ChoiceInterruptedKeepsEncoderMtime | smally.py:138-153 | after an exception between the removal of the original and `touch`, the file at the path is the candidate exactly as the encoder wrote it, with the encoder's mtime |
| Cli.Dispatch | smally.py:226-257 | an unsupported type gives exit 2; with flags set, a non-directory type matched by no set flag gives exit 1; a compressed file's type always matches the tool, and the tool's flag is set when any flag is; a supported file type matched by a set flag (or with no flags) is compressed; a walk happens exactly for directories and carries the ` -j -p -g` flag string |
| Cli.ExitCodes | smally.py:226-257 | the exit status is 2 iff the type is unsupported, 1 iff flags are set and a non-directory type matches none of them, and 0 in every other case |
| Cli.WorkerCount | smally.py:171-172 | the worker count is at most the CPU count and at most the requested count, and equals one of them |
| Cli.FlagString | smally.py:239-242 | no contract of its own: the child flag string; stated by `ParseFlagString` and `Dispatch` |
| Cli.ParseFlags | smally.py:199-204 | no contract of its own: a child's reading of ` -j`, ` -p`, ` -g`; stated by `ParseFlagString` |
| Cli.ExitCode | smally.py:226-257 | no contract of its own: the status once the work returns normally; stated by `ExitCodes` |
| Cli.ParseFlagString | smally.py:238-243 | the flag string built in the order ` -j`, ` -p`, ` -g` parses back to exactly the flags that were set |
| Cli.WalkedFileDispatch | smally.py:174-180 | in a directory walk, a child compresses a file of its tool's type iff no flag was given or that tool's flag was; otherwise the child exits 1 |

## Left out

- `_cmd` and all subprocesses: `jpegtran`, `optipng`, `gifsicle`, `file | grep`, `stat` and `touch`. Encoder outputs are `Output` parameters, `is_jpeg_progressive` is the boolean `isProgressive`, and the mtime is an opaque string. `touch` on a missing path creates an empty file, but no plan ever reaches that case.
- Interruption while the second `jpegtran` encoder or the `make_choice` encoder runs. It leaves the same state as an encoder that wrote nothing, followed by the handler. Interruption inside a handler is not modelled.
- Any failure during the first `jpegtran` encoder run (smally.py:57), including FileNotFoundError when `jpegtran` is not installed. `file_2` is still unbound then, so the handler's first use of it (smally.py:101, or 104-105 and 112 when the original is absent) raises `UnboundLocalError`, which smally.py:115-116 swallows before re-raising the original error. A leftover `<p>.smally.progressive` from an earlier run survives, and with the original absent nothing is renamed into place, whereas `Recover` would delete or rename those files. The model always starts with both temporary names bound.
- Failures raised before the temporary names are computed (smally.py:51-54 and 128-130).
- Relative paths and `os.path.abspath`/`dirname`/`basename`. Paths are absolute and normalised.
- `_find_xargs`: the `find | xargs` command line, streaming its output, exit code 3 when the launch fails, and parallel execution. Only the worker count, the flag string and the child's dispatch are modelled.
- `_show`: the percentage uses floating-point division and `round`, and it prints.
- `argparse` parsing, `--version`, the Windows guard, and the exit with the `file` command's own return code (smally.py:219-224). They depend on external tool output. `Cli.ParseFlags` models only how a child reads back the ` -j -p -g` string.
- Exit status 1 that Python gives for an uncaught exception from a compressor. `Cli.ExitCode` is the status when the work returns normally.
- Termination by a signal. No handler runs, so the directory stays as `Exec(fs1, plan[..k])`. After the first step of a replacing sequence that state has no file at the path. The model states this state but not a kill at any other point inside the handler or the encoders.
- Two workers of one walk sharing a file: a `.smally` file listed by `find` (smally.py:174), left over or still being written, is compressed as an original by a second worker. The model covers one worker per original and only proves when such a clash is possible (`Paths.TempNameOf`).

=== FILE: choice.dfy ===
/**
  `make_choice`, the protocol shared by optipng and gifsicle: one encoder
  run writes `<p>.smally`; the candidate replaces the original exactly when
  the two sizes differ, and on any failure a handler repairs the directory
  before the failure is re-raised.
 */
module Choice {
  import opened Paths
  import opened FileSystem

  /** The sequence after the sizes are read; `m` is the mtime read before the first removal. */
  function ChoicePlan(replace: bool, p: Path, m: Mtime): seq<Step> {
    if replace then [Remove(p), Rename(ChoiceTemp(p), p), Touch(p, m)]
    else [Remove(ChoiceTemp(p))]
  }

  /** What the failure handler does in the state it finds. */
  function ChoiceRecoverySteps(fs: FS, p: Path): seq<Step> {
    var tmp := ChoiceTemp(p);
    if p in fs then [Discard(tmp)]
    else if tmp in fs then [Rename(tmp, p)]
    else []
  }

  function ChoiceRecover(fs: FS, p: Path): Outcome {
    Exec(fs, ChoiceRecoverySteps(fs, p))
  }

  /**
    The handler never fails. With the original in place it only removes the
    candidate; otherwise it moves the candidate into place; with neither
    present it does nothing.
   */
  lemma ChoiceRecoverCases(fs: FS, p: Path)
    ensures var r, tmp := ChoiceRecover(fs, p), ChoiceTemp(p);
            && r.Done?
            && tmp !in r.fs
            && SameOutside(fs, r.fs, {p, tmp})
            && (p in fs ==> p in r.fs && r.fs[p] == fs[p])
            && (p !in fs && tmp in fs ==> p in r.fs && r.fs[p] == fs[tmp])
            && (p !in fs && tmp !in fs ==> r.fs == fs)
  {
    TempNamesDistinct(p);
    var steps := ChoiceRecoverySteps(fs, p);
    if steps != [] {
      ExecOne(fs, steps[0]);
      assert steps == [steps[0]];
    }
  }

  /** A second run of the handler changes nothing, whatever state the first one started from. */
  lemma ChoiceRecoverIdempotent(fs: FS, p: Path)
    ensures ChoiceRecover(ChoiceRecover(fs, p).fs, p) == ChoiceRecover(fs, p)
  {
    var once := ChoiceRecover(fs, p).fs;
    ChoiceRecoverCases(fs, p);
    ChoiceRecoverCases(once, p);
    SameEverywhere(once, ChoiceRecover(once, p).fs, {p, ChoiceTemp(p)});
  }

  /** Runs the handler (whose FileNotFoundError is swallowed), then re-raises the original failure. */
  function ChoiceAbort(fs: FS, p: Path, e: Error): Run {
    match ChoiceRecover(fs, p)
    case Done(repaired) => Raised(e, repaired)
    case Failed(at, _) => Raised(e, at)
  }

  /** The directory once the encoder has written (or failed to write) `<p>.smally`. */
  function ChoiceEncoded(fs: FS, p: Path, out: Output, now: Mtime): (r: FS)
    ensures p in r <==> p in fs
    ensures p in fs ==> r[p] == fs[p]
    ensures SameOutside(fs, r, {ChoiceTemp(p)})
  {
    TempNamesDistinct(p);
    Emit(fs, ChoiceTemp(p), out, now)
  }

  /**
    One call of `make_choice(cmd)(p)`: `out` is what the encoder wrote, `now`
    the mtime a new file gets, `intr` a failure from outside.
   */
  function MakeChoice(fs: FS, p: Path, out: Output, now: Mtime, intr: Interrupt): Run {
    var tmp := ChoiceTemp(p);
    var fs1 := ChoiceEncoded(fs, p, out, now);
    if p !in fs1 then ChoiceAbort(fs1, p, NotFound(p))
    else if tmp !in fs1 then ChoiceAbort(fs1, p, NotFound(tmp))
    else
      var size1, size2 := fs1[p].Size(), fs1[tmp].Size();
      var replace := size1 != size2;
      var saved := if replace then size2 - size1 else 0;
      match Perform(fs1, ChoicePlan(replace, p, fs1[p].mtime), intr)
      case Done(fs2) => Returned(Report(saved, size1), fs2)
      case Failed(fs2, e) => ChoiceAbort(fs2, p, e)
  }

  /** The state after the first `k` steps of `ChoicePlan(replace, p, m)`. */
  function ChoiceState(fs: FS, p: Path, replace: bool, m: Mtime, k: nat): FS
    requires ChoiceTemp(p) in fs
  {
    var tmp := ChoiceTemp(p);
    if k == 0 then fs
    else if !replace then fs - {tmp}
    else if k == 1 then fs - {p}
    else if k == 2 then (fs - {p, tmp})[p := fs[tmp]]
    else (fs - {p, tmp})[p := fs[tmp].(mtime := m)]
  }

  /** Step `k` of the sequence leads from the state after `k` steps to the one after `k + 1`. */
  lemma ChoiceStep(fs: FS, p: Path, replace: bool, m: Mtime, k: nat)
    requires p in fs && ChoiceTemp(p) in fs
    requires k < |ChoicePlan(replace, p, m)|
    ensures Apply(ChoiceState(fs, p, replace, m, k), ChoicePlan(replace, p, m)[k])
              == Done(ChoiceState(fs, p, replace, m, k + 1))
  {
    TempNamesDistinct(p);
    var tmp, before := ChoiceTemp(p), ChoiceState(fs, p, replace, m, k);
    if replace && k == 1 {
      assert (before - {tmp})[p := before[tmp]] == ChoiceState(fs, p, replace, m, 2);
    } else if replace && k == 2 {
      assert before[p := before[p].(mtime := m)] == ChoiceState(fs, p, replace, m, 3);
    }
  }

  /** No step of either sequence fails, and each reaches the expected state. */
  lemma {:induction false} ChoicePrefix(fs: FS, p: Path, replace: bool, m: Mtime, k: nat)
    requires p in fs && ChoiceTemp(p) in fs
    requires k <= |ChoicePlan(replace, p, m)|
    ensures Exec(fs, ChoicePlan(replace, p, m)[..k]) == Done(ChoiceState(fs, p, replace, m, k))
    decreases k
  {
    if k == 0 {
      assert ChoicePlan(replace, p, m)[..0] == [];
    } else {
      ChoicePrefix(fs, p, replace, m, k - 1);
      ExecPrefixStep(fs, ChoicePlan(replace, p, m), k - 1);
      ChoiceStep(fs, p, replace, m, k - 1);
    }
  }

  /**
    Interrupting the sequence after any `k` of its steps and running the
    handler leaves one file at `p` and no candidate: the candidate if it was
    to replace the original and at least one step had run, the untouched
    original otherwise. The complete sequence leaves the winner with the
    mtime read before it started.
   */
  lemma ChoicePlanConverges(fs: FS, p: Path, replace: bool, m: Mtime, k: nat)
    requires p in fs && ChoiceTemp(p) in fs
    requires k <= |ChoicePlan(replace, p, m)|
    ensures var tmp, plan := ChoiceTemp(p), ChoicePlan(replace, p, m);
            var mid := Exec(fs, plan[..k]);
            && mid.Done?
            && (k == |plan| ==>
                  && p in mid.fs && tmp !in mid.fs
                  && mid.fs[p] == (if replace then fs[tmp].(mtime := m) else fs[p])
                  && SameOutside(fs, mid.fs, {p, tmp}))
            && var r := ChoiceRecover(mid.fs, p);
            && r.Done?
            && p in r.fs && tmp !in r.fs
            && r.fs[p].content == (if replace && k > 0 then fs[tmp] else fs[p]).content
            && (!replace || k == 0 ==> r.fs[p] == fs[p])
            && SameOutside(fs, r.fs, {p, tmp})
  {
    TempNamesDistinct(p);
    var tmp := ChoiceTemp(p);
    ChoicePrefix(fs, p, replace, m, k);
    var mid := ChoiceState(fs, p, replace, m, k);
    assert SameOutside(fs, mid, {p, tmp});
    ChoiceRecoverCases(mid, p);
    if k == 0 {
      assert p in mid && mid[p] == fs[p];
    } else if !replace {
      assert p in mid && tmp !in mid && mid[p] == fs[p];
    } else if k == 1 {
      assert p !in mid && mid[tmp] == fs[tmp];
    } else {
      assert p in mid && tmp !in mid && mid[p].content == fs[tmp].content;
    }
  }

  /**
    An uninterrupted call with both files readable returns
    `(size_2 - size_1, size_1)` (zero on equal sizes, positive when the
    candidate is larger), replaces the original exactly when the sizes
    differ, keeps its mtime either way, and removes the candidate; on equal
    sizes the original is not touched at all.
   */
  lemma MakeChoiceReturns(fs: FS, p: Path, out: Output, now: Mtime)
    requires p in fs && ChoiceTemp(p) in ChoiceEncoded(fs, p, out, now)
    ensures var fs1, tmp := ChoiceEncoded(fs, p, out, now), ChoiceTemp(p);
            var size1, size2 := fs1[p].Size(), fs1[tmp].Size();
            var r := MakeChoice(fs, p, out, now, NoInterrupt);
            && r == Returned(Report(size2 - size1, size1), r.fs)
            && p in r.fs && tmp !in r.fs
            && r.fs[p].content == (if size1 != size2 then fs1[tmp] else fs[p]).content
            && r.fs[p].mtime == fs[p].mtime
            && (size1 == size2 ==> r.fs[p] == fs[p])
            && SameOutside(fs, r.fs, {p, tmp})
  {
    var fs1, tmp := ChoiceEncoded(fs, p, out, now), ChoiceTemp(p);
    var plan := ChoicePlan(fs1[p].Size() != fs1[tmp].Size(), p, fs1[p].mtime);
    ChoicePlanConverges(fs1, p, fs1[p].Size() != fs1[tmp].Size(), fs1[p].mtime, |plan|);
    assert plan[..|plan|] == plan;
    SameOutsideTrans(fs, fs1, Exec(fs1, plan).fs, {tmp}, {p, tmp});
  }

  /**
    A failure from outside after any `k` steps is re-raised unchanged, once
    the handler has left exactly one file at `p` and no candidate.
   */
  lemma MakeChoiceInterrupted(fs: FS, p: Path, out: Output, now: Mtime, k: nat)
    requires p in fs && ChoiceTemp(p) in ChoiceEncoded(fs, p, out, now)
    requires var fs1 := ChoiceEncoded(fs, p, out, now);
             k <= |ChoicePlan(fs1[p].Size() != fs1[ChoiceTemp(p)].Size(), p, fs1[p].mtime)|
    ensures var fs1, tmp := ChoiceEncoded(fs, p, out, now), ChoiceTemp(p);
            var replace := fs1[p].Size() != fs1[tmp].Size();
            var r := MakeChoice(fs, p, out, now, InterruptAfter(k));
            && r == Raised(Interrupted, r.fs)
            && p in r.fs && tmp !in r.fs
            && r.fs[p].content == (if replace && k > 0 then fs1[tmp] else fs[p]).content
            && (!replace || k == 0 ==> r.fs[p] == fs[p])
            && SameOutside(fs, r.fs, {p, tmp})
  {
    var fs1, tmp := ChoiceEncoded(fs, p, out, now), ChoiceTemp(p);
    var replace := fs1[p].Size() != fs1[tmp].Size();
    var plan := ChoicePlan(replace, p, fs1[p].mtime);
    ChoicePlanConverges(fs1, p, replace, fs1[p].mtime, k);
    var mid := Exec(fs1, plan[..k]).fs;
    SameOutsideTrans(fs, fs1, ChoiceRecover(mid, p).fs, {tmp}, {p, tmp});
  }

  /**
    When the encoder wrote no candidate, the original stays exactly as it
    was and the FileNotFoundError for `<p>.smally` is re-raised.
   */
  lemma MakeChoiceToolFailure(fs: FS, p: Path, out: Output, now: Mtime, intr: Interrupt)
    requires p in fs && ChoiceTemp(p) !in ChoiceEncoded(fs, p, out, now)
    ensures MakeChoice(fs, p, out, now, intr) == Raised(NotFound(ChoiceTemp(p)), fs)
  {
    ChoiceRecoverCases(fs, p);
    SameEverywhere(fs, ChoiceRecover(fs, p).fs, {p, ChoiceTemp(p)});
  }

  /**
    Whatever happens, a call that found the original or a candidate leaves
    exactly one file at `p`, no candidate, and no other path changed; and a
    failure is always re-raised as it occurred: the FileNotFoundError of the
    first file that could not be read, or the failure from outside.
   */
  lemma MakeChoiceLeavesOneFile(fs: FS, p: Path, out: Output, now: Mtime, intr: Interrupt)
    ensures var fs1, tmp := ChoiceEncoded(fs, p, out, now), ChoiceTemp(p);
            var r := MakeChoice(fs, p, out, now, intr);
            && ((p in fs1 || tmp in fs1) ==>
                  p in r.fs && tmp !in r.fs && SameOutside(fs, r.fs, {p, tmp}))
            && (r.Raised? ==>
                  r.error == (if p !in fs1 then NotFound(p) else if tmp !in fs1 then NotFound(tmp)
                              else Interrupted))
  {
    var fs1, tmp := ChoiceEncoded(fs, p, out, now), ChoiceTemp(p);
    if p !in fs1 || tmp !in fs1 {
      ChoiceRecoverCases(fs1, p);
      SameOutsideTrans(fs, fs1, ChoiceRecover(fs1, p).fs, {tmp}, {p, tmp});
    } else {
      var plan := ChoicePlan(fs1[p].Size() != fs1[tmp].Size(), p, fs1[p].mtime);
      if intr.InterruptAfter? && intr.steps <= |plan| {
        MakeChoiceInterrupted(fs, p, out, now, intr.steps);
      } else {
        MakeChoiceReturns(fs, p, out, now);
      }
    }
  }

  /**
    An encoder that writes an empty file replaces any non-empty original
    with zero bytes, and the report claims all of it as saved.
   */
  lemma EmptyCandidateWins(fs: FS, p: Path, now: Mtime)
    requires p in fs
    ensures var r := MakeChoice(fs, p, Wrote([]), now, NoInterrupt);
            && r == Returned(Report(-(fs[p].Size() as int), fs[p].Size()), r.fs)
            && p in r.fs && r.fs[p].content == []
  {
    TempNamesDistinct(p);
    MakeChoiceReturns(fs, p, Wrote([]), now);
  }

  /**
    A process killed by a signal runs no handler. Killed right after the
    original is removed, it leaves no file at the path, only `<p>.smally`.
   */
  lemma ChoiceKilledAfterRemoval(fs: FS, p: Path, m: Mtime)
    requires p in fs && ChoiceTemp(p) in fs
    ensures var mid := Exec(fs, ChoicePlan(true, p, m)[..1]);
            && mid.Done?
            && p !in mid.fs && ChoiceTemp(p) in mid.fs
  {
    TempNamesDistinct(p);
    assert ChoicePlan(true, p, m)[..1] == [Remove(p)];
    ExecOne(fs, Remove(p));
  }

  /**
    The handler never runs `touch`. A failure from outside after the original
    is removed but before `touch` leaves the candidate exactly as the encoder
    wrote it, with the encoder's mtime instead of the original one.
   */
  lemma ChoiceInterruptedKeepsEncoderMtime(fs: FS, p: Path, bytes: Bytes, now: Mtime, k: nat)
    requires p in fs && |bytes| != fs[p].Size()
    requires 1 <= k <= 2
    ensures var r := MakeChoice(fs, p, Wrote(bytes), now, InterruptAfter(k));
            && r.Raised? && p in r.fs
            && r.fs[p] == Entry(bytes, now)
  {
    TempNamesDistinct(p);
    var tmp, fs1 := ChoiceTemp(p), ChoiceEncoded(fs, p, Wrote(bytes), now);
    assert fs1[tmp] == Entry(bytes, now);
    ChoicePrefix(fs1, p, true, fs1[p].mtime, k);
    var mid := ChoiceState(fs1, p, true, fs1[p].mtime, k);
    ChoiceRecoverCases(mid, p);
    if k == 1 {
      assert p !in mid && mid[tmp] == Entry(bytes, now);
    } else {
      assert p in mid && mid[p] == Entry(bytes, now);
    }
  }
}

=== FILE: cli.dfy ===
/**
  The command-line entry point: the detected file type and the mode flags
  decide whether one compressor runs, a directory walk is started, or the
  process exits with an error code.
 */
module Cli {

  /** The mode flags `-j`, `-p`, `-g`. */
  datatype Flags = Flags(jpegtran: bool, optipng: bool, gifsicle: bool) {
    predicate Any() {
      jpegtran || optipng || gifsicle
    }
  }

  datatype Tool = Jpegtran | Optipng | Gifsicle

  /** Run one compressor on the target, walk a directory with these child flags, or exit with a code. */
  datatype Action = Compress(tool: Tool) | Walk(flags: string) | Exit(code: nat)

  /** The type word the `file` command prints for the files each tool handles. */
  function TypeOf(tool: Tool): string {
    match tool
    case Jpegtran => "JPEG"
    case Optipng => "PNG"
    case Gifsicle => "GIF"
  }

  predicate Enabled(f: Flags, tool: Tool) {
    match tool
    case Jpegtran => f.jpegtran
    case Optipng => f.optipng
    case Gifsicle => f.gifsicle
  }

  predicate Supported(ptype: string) {
    ptype in {"JPEG", "PNG", "GIF", "directory"}
  }

  /** Some set flag names a tool for files of type `ptype`. */
  ghost predicate Matches(f: Flags, ptype: string) {
    exists tool :: TypeOf(tool) == ptype && Enabled(f, tool)
  }

  /** The flags handed to every child process of a directory walk, in the order ` -j`, ` -p`, ` -g`. */
  function FlagString(f: Flags): string {
    (if f.jpegtran then " -j" else "") + (if f.optipng then " -p" else "") + (if f.gifsicle then " -g" else "")
  }

  /** What the process does for a target whose detected type is `ptype`. */
  function Dispatch(ptype: string, f: Flags): (a: Action)
    ensures !Supported(ptype) ==> a == Exit(2)
    ensures Supported(ptype) && f.Any() && ptype != "directory" && !Matches(f, ptype) ==> a == Exit(1)
    ensures a.Compress? ==> TypeOf(a.tool) == ptype && (f.Any() ==> Enabled(f, a.tool))
    ensures Supported(ptype) && ptype != "directory" && (!f.Any() || Matches(f, ptype)) ==> a.Compress?
    ensures a.Walk? <==> ptype == "directory"
    ensures a.Walk? ==> a.flags == FlagString(f)
  {
    if !Supported(ptype) then Exit(2)
    else if f.Any() then
      if f.jpegtran && ptype == "JPEG" then
        assert TypeOf(Jpegtran) == ptype && Enabled(f, Jpegtran);
        Compress(Jpegtran)
      else if f.optipng && ptype == "PNG" then
        assert TypeOf(Optipng) == ptype && Enabled(f, Optipng);
        Compress(Optipng)
      else if f.gifsicle && ptype == "GIF" then
        assert TypeOf(Gifsicle) == ptype && Enabled(f, Gifsicle);
        Compress(Gifsicle)
      else if ptype == "directory" then Walk(FlagString(f))
      else Exit(1)
    else if ptype == "JPEG" then Compress(Jpegtran)
    else if ptype == "PNG" then Compress(Optipng)
    else if ptype == "GIF" then Compress(Gifsicle)
    else Walk("")
  }

  /** The exit status once the chosen work has returned normally. */
  function ExitCode(a: Action): nat {
    if a.Exit? then a.code else 0
  }

  /** Exit status 0 exactly for a supported type that is a directory, or matches a set flag, or when no flag is set. */
  lemma ExitCodes(ptype: string, f: Flags)
    ensures ExitCode(Dispatch(ptype, f)) == 2 <==> !Supported(ptype)
    ensures ExitCode(Dispatch(ptype, f)) == 1 <==>
              Supported(ptype) && f.Any() && ptype != "directory" && !Matches(f, ptype)
    ensures ExitCode(Dispatch(ptype, f)) == 0 <==>
              Supported(ptype) && (!f.Any() || ptype == "directory" || Matches(f, ptype))
  {
    var a := Dispatch(ptype, f);
    if a.Compress? {
      assert TypeOf(a.tool) == ptype && Enabled(f, a.tool) ==> Matches(f, ptype);
    }
  }

  /** Number of parallel workers: the requested count, never more than the logical CPUs. */
  function WorkerCount(cpus: nat, requested: int): (n: int)
    ensures n <= cpus && n <= requested
    ensures n == cpus || n == requested
  {
    if cpus <= requested then cpus else requested
  }

  datatype Parsed = Parsed(flags: Flags) | Unrecognised

  /** How a child process reads its flag string back: any sequence of ` -j`, ` -p`, ` -g`. */
  function ParseFlags(s: string): Parsed
    decreases |s|
  {
    if s == [] then Parsed(Flags(false, false, false))
    else if |s| < 3 || s[0] != ' ' || s[1] != '-' then Unrecognised
    else
      match ParseFlags(s[3..])
      case Unrecognised => Unrecognised
      case Parsed(f) =>
        if s[2] == 'j' then Parsed(f.(jpegtran := true))
        else if s[2] == 'p' then Parsed(f.(optipng := true))
        else if s[2] == 'g' then Parsed(f.(gifsicle := true))
        else Unrecognised
  }

  lemma ParseToken(c: char, rest: string)
    ensures ParseFlags([' ', '-', c] + rest) ==
              match ParseFlags(rest)
              case Unrecognised => Unrecognised
              case Parsed(f) =>
                if c == 'j' then Parsed(f.(jpegtran := true))
                else if c == 'p' then Parsed(f.(optipng := true))
                else if c == 'g' then Parsed(f.(gifsicle := true))
                else Unrecognised
  {
    assert ([' ', '-', c] + rest)[3..] == rest;
  }

  /** A child process reads back exactly the flags its parent was given. */
  lemma ParseFlagString(f: Flags)
    ensures ParseFlags(FlagString(f)) == Parsed(f)
  {
    var g := if f.gifsicle then " -g" else "";
    var pg := (if f.optipng then " -p" else "") + g;
    assert FlagString(f) == (if f.jpegtran then " -j" else "") + pg;
    if f.gifsicle {
      ParseToken('g', []);
      assert " -g" == [' ', '-', 'g'] + [];
    }
    assert ParseFlags(g) == Parsed(Flags(false, false, f.gifsicle));
    if f.optipng {
      ParseToken('p', g);
      assert " -p" + g == [' ', '-', 'p'] + g;
    }
    assert ParseFlags(pg) == Parsed(Flags(false, f.optipng, f.gifsicle));
    if f.jpegtran {
      ParseToken('j', pg);
      assert " -j" + pg == [' ', '-', 'j'] + pg;
    }
  }

  /**
    In a directory walk, a JPEG, PNG or GIF file is compressed by its child
    process exactly when no flag was given or the flag for its tool was;
    otherwise the child exits with status 1.
   */
  lemma WalkedFileDispatch(f: Flags, tool: Tool)
    ensures var child := ParseFlags(Dispatch("directory", f).flags);
            && child.Parsed?
            && var a := Dispatch(TypeOf(tool), child.flags);
            && (a == Compress(tool) <==> !f.Any() || Enabled(f, tool))
            && (a != Compress(tool) ==> a == Exit(1))
  {
    ParseFlagString(f);
    var a := Dispatch(TypeOf(tool), f);
    if Enabled(f, tool) {
      assert Matches(f, TypeOf(tool));
    }
    if a.Compress? {
      assert a.tool == tool;
    }
  }
}

=== FILE: filesystem.dfy ===
/**
  An immutable model of the directory one worker operates in, and of the
  destructive operations the replace sequences perform on it.

  A file is its bytes plus the opaque modification-time token that
  `stat -c "%y"` prints and `touch -m -d` writes back; the size smally.py
  reads with `os.path.getsize` is the length of the bytes.
 */
module FileSystem {
  import opened Paths

  type Bytes = seq<bv8>

  /** Only ever compared for equality and copied, never parsed. */
  type Mtime = string

  datatype Entry = Entry(content: Bytes, mtime: Mtime) {
    function Size(): nat {
      |content|
    }
  }

  type FS = map<Path, Entry>

  /** `NotFound` is Python's FileNotFoundError; `Interrupted` is a failure raised from outside (KeyboardInterrupt). */
  datatype Error = NotFound(path: Path) | Interrupted

  datatype Step =
    | Remove(path: Path)               // os.remove
    | Discard(path: Path)              // os.remove inside `except FileNotFoundError: pass`
    | Rename(src: Path, dst: Path)     // os.rename, replacing dst
    | Touch(path: Path, mtime: Mtime)  // touch -m -d, run as a subprocess whose status is ignored

  /** The state reached by a step sequence, and the failure that stopped it, if any. */
  datatype Outcome = Done(fs: FS) | Failed(fs: FS, error: Error)

  /** What an external encoder left behind: nothing, or a file with these bytes. */
  datatype Output = NoOutput | Wrote(bytes: Bytes)

  /** Whether a failure from outside arrives after the first `steps` steps of a replace sequence. */
  datatype Interrupt = NoInterrupt | InterruptAfter(steps: nat)

  /** The `(saved, size)` pair both compressors return. */
  datatype Report = Report(saved: int, size: nat)

  /** A call of a compressor: it returns a report, or raises an error after its failure handler ran. */
  datatype Run = Returned(report: Report, fs: FS) | Raised(error: Error, fs: FS)

  /** `a` and `b` agree on every path outside `touched`. */
  ghost predicate SameOutside(a: FS, b: FS, touched: set<Path>) {
    forall q :: q !in touched ==> (q in a <==> q in b) && (q in a ==> a[q] == b[q])
  }

  /** The paths a step may change. */
  function Touched(s: Step): set<Path> {
    match s
    case Remove(p) => {p}
    case Discard(p) => {p}
    case Rename(src, dst) => {src, dst}
    case Touch(p, _) => {p}
  }

  /** The paths a step sequence may change. */
  function Names(steps: seq<Step>): set<Path>
    decreases |steps|
  {
    if steps == [] then {} else Touched(steps[0]) + Names(steps[1..])
  }

  /** An encoder writing its output file (with the current time as mtime), or leaving the path as it was. */
  function Emit(fs: FS, path: Path, out: Output, now: Mtime): (r: FS)
    ensures SameOutside(fs, r, {path})
    ensures out.Wrote? ==> path in r && r[path] == Entry(out.bytes, now)
    ensures out.NoOutput? ==> r == fs
  {
    match out
    case NoOutput => fs
    case Wrote(b) => fs[path := Entry(b, now)]
  }

  function Apply(fs: FS, s: Step): (r: Outcome)
    ensures SameOutside(fs, r.fs, Touched(s))
    ensures r.Failed? ==> r.fs == fs && r.error.NotFound?
    ensures r.Failed? <==> (s.Remove? && s.path !in fs) || (s.Rename? && s.src !in fs)
  {
    match s
    case Remove(p) => if p in fs then Done(fs - {p}) else Failed(fs, NotFound(p))
    case Discard(p) => Done(fs - {p})
    case Rename(src, dst) =>
      if src in fs then Done((fs - {src})[dst := fs[src]]) else Failed(fs, NotFound(src))
    case Touch(p, m) =>
      // touch creates an empty file when the path is absent
      Done(if p in fs then fs[p := fs[p].(mtime := m)] else fs[p := Entry([], m)])
  }

  /** Runs the steps in order and stops at the first one that raises. */
  function Exec(fs: FS, steps: seq<Step>): (r: Outcome)
    ensures SameOutside(fs, r.fs, Names(steps))
    decreases |steps|
  {
    if steps == [] then Done(fs)
    else
      match Apply(fs, steps[0])
      case Done(next) => Exec(next, steps[1..])
      case Failed(at, e) => Failed(at, e)
  }

  /** One more step after an outcome; a failure stays a failure. */
  function AndThen(o: Outcome, s: Step): Outcome {
    match o
    case Done(fs) => Apply(fs, s)
    case Failed(_, _) => o
  }

  /**
    A replace sequence, cut short by a failure from outside when `intr` says so.
    The file system is the one the steps before the cut reached (all of them
    when nothing cuts), and the sequence completes exactly when nothing cuts it
    and none of its steps fails.
  */
  function Perform(fs: FS, steps: seq<Step>, intr: Interrupt): (r: Outcome)
    ensures var n := if intr.InterruptAfter? && intr.steps <= |steps| then intr.steps else |steps|;
            r.fs == Exec(fs, steps[..n]).fs
    ensures r.Done? <==> (intr.NoInterrupt? || intr.steps > |steps|) && Exec(fs, steps).Done?
  {
    assert steps[..|steps|] == steps;
    match intr
    case NoInterrupt => Exec(fs, steps)
    case InterruptAfter(k) =>
      if k <= |steps| then
        match Exec(fs, steps[..k])
        case Done(at) => Failed(at, Interrupted)
        case Failed(at, e) => Failed(at, e)
      else Exec(fs, steps)
  }

  lemma ExecOne(fs: FS, a: Step)
    ensures Exec(fs, [a]) == Apply(fs, a)
  {
    assert [a][1..] == [];
  }

  lemma ExecTwo(fs: FS, a: Step, b: Step)
    ensures Exec(fs, [a, b]) == AndThen(Apply(fs, a), b)
  {
    assert [a, b][1..] == [b];
    if Apply(fs, a).Done? {
      ExecOne(Apply(fs, a).fs, b);
    }
  }

  lemma {:induction false} ExecSnoc(fs: FS, steps: seq<Step>, s: Step)
    ensures Exec(fs, steps + [s]) == AndThen(Exec(fs, steps), s)
    decreases |steps|
  {
    if steps == [] {
      assert steps + [s] == [s];
      assert [s][1..] == [];
    } else {
      assert (steps + [s])[0] == steps[0];
      assert (steps + [s])[1..] == steps[1..] + [s];
      match Apply(fs, steps[0])
      case Done(next) => ExecSnoc(next, steps[1..], s);
      case Failed(_, _) =>
    }
  }

  /** Running one more step of a sequence is one more `AndThen`. */
  lemma ExecPrefixStep(fs: FS, steps: seq<Step>, k: nat)
    requires k < |steps|
    ensures Exec(fs, steps[..k + 1]) == AndThen(Exec(fs, steps[..k]), steps[k])
  {
    assert steps[..k + 1] == steps[..k] + [steps[k]];
    ExecSnoc(fs, steps[..k], steps[k]);
  }

  lemma SameOutsideTrans(a: FS, b: FS, c: FS, t: set<Path>, u: set<Path>)
    requires SameOutside(a, b, t) && SameOutside(b, c, u)
    ensures SameOutside(a, c, t + u)
  {
  }

  /** Two states that agree outside `t` and on every path in `t` are the same state. */
  lemma SameEverywhere(a: FS, b: FS, t: set<Path>)
    requires SameOutside(a, b, t)
    requires forall q :: q in t ==> (q in a <==> q in b) && (q in a ==> a[q] == b[q])
    ensures a == b
  {
    assert a.Keys == b.Keys;
  }
}

=== FILE: jpeg.dfy ===
/**
  `jpegtran`: write a baseline and a progressive candidate beside the
  original, keep the smallest of the three (with the progressive tie-breaks),
  put it in place with its original mtime, and on any failure repair the
  directory before re-raising.
 */
module Jpeg {
  import opened Paths
  import opened FileSystem

  datatype Variant = Original | Baseline | Progressive

  /** Python's `min` of three integers. */
  function Min3(a: int, b: int, c: int): (m: int)
    ensures m <= a && m <= b && m <= c
    ensures m == a || m == b || m == c
  {
    if a <= b && a <= c then a else if b <= c then b else c
  }

  function SizeOf(v: Variant, size: nat, size1: nat, size2: nat): nat {
    match v
    case Original => size
    case Baseline => size1
    case Progressive => size2
  }

  /**
    The winner among the original (`size`), the baseline candidate (`size1`)
    and the progressive candidate (`size2`); `progressive` says whether the
    original already is a progressive JPEG.
   */
  function Select(size: nat, size1: nat, size2: nat, progressive: bool): (v: Variant)
    ensures SizeOf(v, size, size1, size2) == Min3(size, size1, size2)
    ensures v == Baseline <==> size1 < size && size1 < size2
    ensures v == Progressive <==>
              (size2 < size && size2 <= size1) || (size2 == size && size <= size1 && !progressive)
    ensures v == Original <==>
              size <= size1 && (size < size2 || (size == size2 && progressive))
  {
    if size <= size1 && size <= size2 then
      if size == size2 && !progressive then Progressive else Original
    else if size2 <= size1 then Progressive
    else Baseline
  }

  /** The directory once both encoder runs have written (or failed to write) their outputs. */
  function Encoded(fs: FS, p: Path, baseline: Output, progressive: Output, now: Mtime): (r: FS)
    ensures p in r <==> p in fs
    ensures p in fs ==> r[p] == fs[p]
    ensures SameOutside(fs, r, {BaselineTemp(p), ProgressiveTemp(p)})
  {
    TempNamesDistinct(p);
    Emit(Emit(fs, BaselineTemp(p), baseline, now), ProgressiveTemp(p), progressive, now)
  }

  /** The original and both candidates are present, so all three sizes can be read. */
  ghost predicate AllPresent(fs: FS, p: Path) {
    p in fs && BaselineTemp(p) in fs && ProgressiveTemp(p) in fs
  }

  function Chosen(fs: FS, p: Path, progressive: bool): Variant
    requires AllPresent(fs, p)
  {
    Select(fs[p].Size(), fs[BaselineTemp(p)].Size(), fs[ProgressiveTemp(p)].Size(), progressive)
  }

  /** The file that should end up at `p` when `v` wins. */
  function WinnerOf(fs: FS, p: Path, v: Variant): Entry
    requires AllPresent(fs, p)
  {
    match v
    case Original => fs[p]
    case Baseline => fs[BaselineTemp(p)]
    case Progressive => fs[ProgressiveTemp(p)]
  }

  /** The remove/rename sequence for winner `v`, `m` being the mtime read before it starts. */
  function Plan(v: Variant, p: Path, m: Mtime): seq<Step> {
    match v
    case Original => [Remove(BaselineTemp(p)), Remove(ProgressiveTemp(p))]
    case Baseline => Swap(p, BaselineTemp(p), ProgressiveTemp(p), m)
    case Progressive => Swap(p, ProgressiveTemp(p), BaselineTemp(p), m)
  }

  /** A candidate's replace sequence: winner at `wp`, loser at `lp`. */
  function Swap(p: Path, wp: Path, lp: Path, m: Mtime): seq<Step> {
    [Remove(p), Remove(lp), Rename(wp, p), Touch(p, m)]
  }

  /** What the failure handler does in the state it finds. */
  function RecoverySteps(fs: FS, p: Path): seq<Step> {
    var f1 := BaselineTemp(p);
    var f2 := ProgressiveTemp(p);
    if p in fs then [Discard(f1), Discard(f2)]
    else if f1 in fs && f2 in fs then
      if fs[f1].Size() >= fs[f2].Size() then [Remove(f1), Rename(f2, p)]
      else [Remove(f2), Rename(f1, p)]
    else if f2 in fs then [Rename(f2, p)]
    else [Rename(f1, p)]
  }

  /** The failure handler, run on the state the failure left behind. */
  function Recover(fs: FS, p: Path): Outcome {
    Exec(fs, RecoverySteps(fs, p))
  }

  /**
    With the original still in place the handler only deletes the candidates
    that exist; otherwise it moves the strictly smaller candidate into place
    (the progressive one on a tie), or the only one left. It fails only when
    no file at all is left to put in place.
   */
  lemma RecoverCases(fs: FS, p: Path)
    ensures var r, f1, f2 := Recover(fs, p), BaselineTemp(p), ProgressiveTemp(p);
            r.Done? ==> p in r.fs && f1 !in r.fs && f2 !in r.fs && SameOutside(fs, r.fs, {p, f1, f2})
    ensures p in fs ==> Recover(fs, p).Done? && Recover(fs, p).fs[p] == fs[p]
    ensures var r, f1, f2 := Recover(fs, p), BaselineTemp(p), ProgressiveTemp(p);
            p !in fs && f1 in fs && f2 in fs ==>
              r.Done? && r.fs[p] == (if fs[f1].Size() < fs[f2].Size() then fs[f1] else fs[f2])
    ensures var r, f1, f2 := Recover(fs, p), BaselineTemp(p), ProgressiveTemp(p);
            p !in fs && f1 in fs && f2 !in fs ==> r.Done? && r.fs[p] == fs[f1]
    ensures var r, f1, f2 := Recover(fs, p), BaselineTemp(p), ProgressiveTemp(p);
            p !in fs && f1 !in fs && f2 in fs ==> r.Done? && r.fs[p] == fs[f2]
    ensures var r, f1, f2 := Recover(fs, p), BaselineTemp(p), ProgressiveTemp(p);
            p !in fs && f1 !in fs && f2 !in fs ==> r == Failed(fs, NotFound(f1))
  {
    TempNamesDistinct(p);
    var f1, f2 := BaselineTemp(p), ProgressiveTemp(p);
    var steps := RecoverySteps(fs, p);
    if |steps| == 1 {
      ExecOne(fs, steps[0]);
      assert steps == [steps[0]];
    } else {
      ExecTwo(fs, steps[0], steps[1]);
      assert steps == [steps[0], steps[1]];
    }
  }

  /** Runs the failure handler, then re-raises: the original error, or the handler's own. */
  function Abort(fs: FS, p: Path, e: Error): Run {
    match Recover(fs, p)
    case Done(repaired) => Raised(e, repaired)
    case Failed(at, e2) => Raised(e2, at)
  }

  /**
    One call of `jpegtran(p)`: `baseline` and `progressive` are what the two
    encoder runs wrote, `isProgressive` is the answer of the format
    inspector, `now` the mtime new files get, `intr` a failure from outside.
   */
  function JpegTran(fs: FS, p: Path, baseline: Output, progressive: Output, isProgressive: bool,
                    now: Mtime, intr: Interrupt): Run
  {
    var f1 := BaselineTemp(p);
    var f2 := ProgressiveTemp(p);
    var fs1 := Encoded(fs, p, baseline, progressive, now);
    if p !in fs1 then Abort(fs1, p, NotFound(p))
    else if f1 !in fs1 then Abort(fs1, p, NotFound(f1))
    else if f2 !in fs1 then Abort(fs1, p, NotFound(f2))
    else
      var size, size1, size2 := fs1[p].Size(), fs1[f1].Size(), fs1[f2].Size();
      var v := Select(size, size1, size2, isProgressive);
      match Perform(fs1, Plan(v, p, fs1[p].mtime), intr)
      case Done(fs2) => Returned(Report(SizeOf(v, size, size1, size2) - size, size), fs2)
      case Failed(fs2, e) => Abort(fs2, p, e)
  }

  /** The original wins: after `k` of its deletions exactly the first `k` candidates are gone. */
  lemma OriginalPrefix(fs: FS, p: Path, m: Mtime, k: nat)
    requires AllPresent(fs, p)
    requires k <= 2
    ensures var f1, f2 := BaselineTemp(p), ProgressiveTemp(p);
            Exec(fs, Plan(Original, p, m)[..k])
              == Done(if k == 0 then fs else if k == 1 then fs - {f1} else fs - {f1, f2})
  {
    var f1, f2 := BaselineTemp(p), ProgressiveTemp(p);
    var plan := Plan(Original, p, m);
    if k == 0 {
      assert plan[..0] == [];
    } else if k == 1 {
      assert plan[..1] == [Remove(f1)];
      ExecOne(fs, Remove(f1));
    } else {
      assert plan[..2] == [Remove(f1), Remove(f2)];
      ExecTwo(fs, Remove(f1), Remove(f2));
      assert (fs - {f1}) - {f2} == fs - {f1, f2};
    }
  }

  /** The original wins: the plan deletes the candidates and nothing else, and so does the handler after any prefix of it. */
  lemma OriginalPlanConverges(fs: FS, p: Path, m: Mtime, k: nat)
    requires AllPresent(fs, p)
    requires k <= 2
    ensures var f1, f2 := BaselineTemp(p), ProgressiveTemp(p);
            var mid := Exec(fs, Plan(Original, p, m)[..k]);
            && mid.Done?
            && (k == 2 ==> mid.fs == fs - {f1, f2})
            && Recover(mid.fs, p) == Done(fs - {f1, f2})
  {
    var f1, f2 := BaselineTemp(p), ProgressiveTemp(p);
    OriginalPrefix(fs, p, m, k);
    var mid := if k == 0 then fs else if k == 1 then fs - {f1} else fs - {f1, f2};
    RecoverKeepsOriginal(mid, p);
    assert mid - {f1, f2} == fs - {f1, f2};
  }

  /** With the original in place the handler deletes both candidate names and nothing else. */
  lemma RecoverKeepsOriginal(fs: FS, p: Path)
    requires p in fs
    ensures Recover(fs, p) == Done(fs - {BaselineTemp(p), ProgressiveTemp(p)})
  {
    var f1, f2 := BaselineTemp(p), ProgressiveTemp(p);
    ExecTwo(fs, Discard(f1), Discard(f2));
    assert (fs - {f1}) - {f2} == fs - {f1, f2};
  }

  /** The state after the first `k` steps of `Swap(p, wp, lp, m)`. */
  function SwapState(fs: FS, p: Path, wp: Path, lp: Path, m: Mtime, k: nat): FS
    requires wp in fs
  {
    if k == 0 then fs
    else if k == 1 then fs - {p}
    else if k == 2 then fs - {p, lp}
    else if k == 3 then (fs - {lp, wp})[p := fs[wp]]
    else (fs - {lp, wp})[p := fs[wp].(mtime := m)]
  }

  /** Step `k` of a candidate's replace sequence leads from the state after `k` steps to the one after `k + 1`. */
  lemma SwapStep(fs: FS, p: Path, wp: Path, lp: Path, m: Mtime, k: nat)
    requires p != wp && p != lp && wp != lp
    requires p in fs && wp in fs && lp in fs
    requires k < 4
    ensures Apply(SwapState(fs, p, wp, lp, m, k), Swap(p, wp, lp, m)[k]) == Done(SwapState(fs, p, wp, lp, m, k + 1))
  {
    var before := SwapState(fs, p, wp, lp, m, k);
    if k == 1 {
      assert before - {lp} == SwapState(fs, p, wp, lp, m, 2);
    } else if k == 2 {
      assert (before - {wp})[p := before[wp]] == SwapState(fs, p, wp, lp, m, 3);
    } else if k == 3 {
      assert before[p := before[p].(mtime := m)] == SwapState(fs, p, wp, lp, m, 4);
    }
  }

  /** No step of a candidate's replace sequence fails, and each reaches the expected state. */
  lemma {:induction false} SwapPrefix(fs: FS, p: Path, wp: Path, lp: Path, m: Mtime, k: nat)
    requires p != wp && p != lp && wp != lp
    requires p in fs && wp in fs && lp in fs
    requires k <= 4
    ensures Exec(fs, Swap(p, wp, lp, m)[..k]) == Done(SwapState(fs, p, wp, lp, m, k))
    decreases k
  {
    if k == 0 {
      assert Swap(p, wp, lp, m)[..0] == [];
    } else {
      SwapPrefix(fs, p, wp, lp, m, k - 1);
      ExecPrefixStep(fs, Swap(p, wp, lp, m), k - 1);
      SwapStep(fs, p, wp, lp, m, k - 1);
    }
  }

  /**
    A candidate wins. After any number of steps of its replace sequence the
    handler finishes the job with the intended winner, because the size rule
    it falls back on agrees with the selection; only when the interruption
    lands before the first step does the original stay.
   */
  lemma {:induction false} CandidatePlanConverges(fs: FS, p: Path, v: Variant, m: Mtime, k: nat)
    requires AllPresent(fs, p)
    requires v == Baseline ==> fs[BaselineTemp(p)].Size() < fs[ProgressiveTemp(p)].Size()
    requires v == Progressive ==> fs[ProgressiveTemp(p)].Size() <= fs[BaselineTemp(p)].Size()
    requires v != Original
    requires k <= 4
    ensures var f1, f2 := BaselineTemp(p), ProgressiveTemp(p);
            var winner := WinnerOf(fs, p, v);
            var mid := Exec(fs, Plan(v, p, m)[..k]);
            && mid.Done?
            && (k == 4 ==> mid.fs == (fs - {f1, f2})[p := winner.(mtime := m)])
            && var r := Recover(mid.fs, p);
            && r.Done?
            && p in r.fs && f1 !in r.fs && f2 !in r.fs
            && r.fs[p] == (if k == 0 then fs[p] else if k == 4 then winner.(mtime := m) else winner)
            && SameOutside(fs, r.fs, {p, f1, f2})
  {
    TempNamesDistinct(p);
    var f1, f2 := BaselineTemp(p), ProgressiveTemp(p);
    var wp, lp := if v == Baseline then f1 else f2, if v == Baseline then f2 else f1;
    assert Plan(v, p, m) == Swap(p, wp, lp, m);
    SwapPrefix(fs, p, wp, lp, m, k);
    var mid := SwapState(fs, p, wp, lp, m, k);
    assert {lp, wp} == {f1, f2};
    assert SameOutside(fs, mid, {p, f1, f2});
    RecoverCases(mid, p);
    if k == 1 {
      assert mid[f1] == fs[f1] && mid[f2] == fs[f2];
    } else if k == 2 {
      assert p !in mid && lp !in mid && mid[wp] == fs[wp];
    } else if k >= 3 {
      assert p in mid && f1 !in mid && f2 !in mid;
    }
  }

  /**
    Interrupting the replace sequence after any `k` of its steps and then
    running the handler leaves at `p` the original if nothing had been done
    yet and the intended winner otherwise, and no candidate; the complete
    sequence itself leaves the winner with the mtime read before it started.
   */
  lemma ReplaceConverges(fs: FS, p: Path, progressive: bool, k: nat)
    requires AllPresent(fs, p)
    requires k <= |Plan(Chosen(fs, p, progressive), p, fs[p].mtime)|
    ensures var v, f1, f2 := Chosen(fs, p, progressive), BaselineTemp(p), ProgressiveTemp(p);
            var plan := Plan(v, p, fs[p].mtime);
            var mid := Exec(fs, plan[..k]);
            && mid.Done?
            && (k == |plan| ==>
                  && p in mid.fs && f1 !in mid.fs && f2 !in mid.fs
                  && mid.fs[p] == WinnerOf(fs, p, v).(mtime := fs[p].mtime)
                  && SameOutside(fs, mid.fs, {p, f1, f2}))
            && var r := Recover(mid.fs, p);
            && r.Done?
            && p in r.fs && f1 !in r.fs && f2 !in r.fs
            && r.fs[p].content == (if k == 0 then fs[p] else WinnerOf(fs, p, v)).content
            && (v == Original || k == 0 ==> r.fs[p] == fs[p])
            && SameOutside(fs, r.fs, {p, f1, f2})
  {
    TempNamesDistinct(p);
    var v := Chosen(fs, p, progressive);
    if v == Original {
      OriginalPlanConverges(fs, p, fs[p].mtime, k);
    } else {
      CandidatePlanConverges(fs, p, v, fs[p].mtime, k);
    }
  }

  /** The handler run twice does no more than the handler run once. */
  lemma RecoverIdempotent(fs: FS, p: Path)
    ensures Recover(Recover(fs, p).fs, p) == Recover(fs, p)
  {
    var once := Recover(fs, p).fs;
    RecoverCases(fs, p);
    RecoverCases(once, p);
    SameEverywhere(once, Recover(once, p).fs, {p, BaselineTemp(p), ProgressiveTemp(p)});
  }

  /**
    An uninterrupted run with all three files readable returns
    `(min(size, size_1, size_2) - size, size)`, so `saved <= 0`, and leaves
    only `p`, holding the selected variant with the original mtime; a kept
    original is not touched at all, and no other path changes.
   */
  lemma JpegTranReturns(fs: FS, p: Path, baseline: Output, progressive: Output, isProgressive: bool,
                        now: Mtime)
    requires AllPresent(Encoded(fs, p, baseline, progressive, now), p)
    ensures var fs1 := Encoded(fs, p, baseline, progressive, now);
            var f1, f2 := BaselineTemp(p), ProgressiveTemp(p);
            var size, size1, size2 := fs1[p].Size(), fs1[f1].Size(), fs1[f2].Size();
            var v := Select(size, size1, size2, isProgressive);
            var r := JpegTran(fs, p, baseline, progressive, isProgressive, now, NoInterrupt);
            && r == Returned(Report(Min3(size, size1, size2) - size, size), r.fs)
            && r.report.saved <= 0
            && p in r.fs && f1 !in r.fs && f2 !in r.fs
            && r.fs[p].content == WinnerOf(fs1, p, v).content
            && r.fs[p].mtime == fs[p].mtime
            && (v == Original ==> r.fs[p] == fs[p])
            && SameOutside(fs, r.fs, {p, f1, f2})
  {
    var fs1 := Encoded(fs, p, baseline, progressive, now);
    var f1, f2 := BaselineTemp(p), ProgressiveTemp(p);
    var plan := Plan(Chosen(fs1, p, isProgressive), p, fs1[p].mtime);
    JpegTranCompletes(fs, p, baseline, progressive, isProgressive, now);
    ReplaceConverges(fs1, p, isProgressive, |plan|);
    assert plan[..|plan|] == plan;
    SameOutsideTrans(fs, fs1, Exec(fs1, plan).fs, {f1, f2}, {p, f1, f2});
  }

  /** Without interruption the replace sequence runs to its end and the report is the smallest size against the original's. */
  lemma JpegTranCompletes(fs: FS, p: Path, baseline: Output, progressive: Output, isProgressive: bool,
                          now: Mtime)
    requires AllPresent(Encoded(fs, p, baseline, progressive, now), p)
    ensures var fs1 := Encoded(fs, p, baseline, progressive, now);
            var size, size1, size2 := fs1[p].Size(), fs1[BaselineTemp(p)].Size(), fs1[ProgressiveTemp(p)].Size();
            var plan := Plan(Chosen(fs1, p, isProgressive), p, fs1[p].mtime);
            && Exec(fs1, plan).Done?
            && JpegTran(fs, p, baseline, progressive, isProgressive, now, NoInterrupt)
               == Returned(Report(Min3(size, size1, size2) - size, size), Exec(fs1, plan).fs)
  {
    var fs1 := Encoded(fs, p, baseline, progressive, now);
    var size, size1, size2 := fs1[p].Size(), fs1[BaselineTemp(p)].Size(), fs1[ProgressiveTemp(p)].Size();
    var v := Chosen(fs1, p, isProgressive);
    var plan := Plan(v, p, fs1[p].mtime);
    PlanRuns(fs1, p, v, fs1[p].mtime);
    assert Perform(fs1, plan, NoInterrupt) == Exec(fs1, plan);
    assert SizeOf(v, size, size1, size2) == Min3(size, size1, size2);
  }

  /** No step of any winner's replace sequence fails when all three files are present. */
  lemma PlanRuns(fs: FS, p: Path, v: Variant, m: Mtime)
    requires AllPresent(fs, p)
    ensures Exec(fs, Plan(v, p, m)).Done?
  {
    TempNamesDistinct(p);
    var f1, f2, plan := BaselineTemp(p), ProgressiveTemp(p), Plan(v, p, m);
    assert plan[..|plan|] == plan;
    match v
    case Original => OriginalPrefix(fs, p, m, 2);
    case Baseline => SwapPrefix(fs, p, f1, f2, m, 4);
    case Progressive => SwapPrefix(fs, p, f2, f1, m, 4);
  }

  /**
    A failure from outside after any `k` steps of the replace sequence is
    re-raised unchanged, once the handler has left exactly one file at `p`
    (the original if no step had run, the intended winner otherwise) and no
    candidate.
   */
  lemma JpegTranInterrupted(fs: FS, p: Path, baseline: Output, progressive: Output, isProgressive: bool,
                            now: Mtime, k: nat)
    requires AllPresent(Encoded(fs, p, baseline, progressive, now), p)
    requires var fs1 := Encoded(fs, p, baseline, progressive, now);
             k <= |Plan(Chosen(fs1, p, isProgressive), p, fs1[p].mtime)|
    ensures var fs1 := Encoded(fs, p, baseline, progressive, now);
            var f1, f2 := BaselineTemp(p), ProgressiveTemp(p);
            var v := Chosen(fs1, p, isProgressive);
            var r := JpegTran(fs, p, baseline, progressive, isProgressive, now, InterruptAfter(k));
            && r == Raised(Interrupted, r.fs)
            && p in r.fs && f1 !in r.fs && f2 !in r.fs
            && r.fs[p].content == (if k == 0 then fs[p] else WinnerOf(fs1, p, v)).content
            && (v == Original || k == 0 ==> r.fs[p] == fs[p])
            && SameOutside(fs, r.fs, {p, f1, f2})
  {
    var fs1 := Encoded(fs, p, baseline, progressive, now);
    var v := Chosen(fs1, p, isProgressive);
    var plan := Plan(v, p, fs1[p].mtime);
    ReplaceConverges(fs1, p, isProgressive, k);
    var mid := Exec(fs1, plan[..k]).fs;
    SameOutsideTrans(fs, fs1, Recover(mid, p).fs, {BaselineTemp(p), ProgressiveTemp(p)},
                     {p, BaselineTemp(p), ProgressiveTemp(p)});
  }

  /**
    When an encoder left no candidate to read, the handler deletes whatever
    candidate there is, the original stays as it was, and the
    FileNotFoundError of the missing candidate is re-raised.
   */
  lemma JpegTranToolFailure(fs: FS, p: Path, baseline: Output, progressive: Output, isProgressive: bool,
                            now: Mtime, intr: Interrupt)
    requires p in fs
    requires !AllPresent(Encoded(fs, p, baseline, progressive, now), p)
    ensures var fs1 := Encoded(fs, p, baseline, progressive, now);
            var f1, f2 := BaselineTemp(p), ProgressiveTemp(p);
            var r := JpegTran(fs, p, baseline, progressive, isProgressive, now, intr);
            && r == Raised(NotFound(if f1 !in fs1 then f1 else f2), r.fs)
            && p in r.fs && r.fs[p] == fs[p] && f1 !in r.fs && f2 !in r.fs
            && SameOutside(fs, r.fs, {f1, f2})
  {
    var fs1 := Encoded(fs, p, baseline, progressive, now);
    RecoverCases(fs1, p);
    SameOutsideTrans(fs, fs1, Recover(fs1, p).fs, {BaselineTemp(p), ProgressiveTemp(p)},
                     {p, BaselineTemp(p), ProgressiveTemp(p)});
  }

  /**
    Whatever happens, a call that found any of the three files leaves exactly
    one file at `p` and no candidate, and changes no other path; a call that
    found none of them raises the handler's own FileNotFoundError for the
    baseline candidate instead of the original one.
   */
  lemma JpegTranLeavesOneFile(fs: FS, p: Path, baseline: Output, progressive: Output, isProgressive: bool,
                              now: Mtime, intr: Interrupt)
    ensures var fs1 := Encoded(fs, p, baseline, progressive, now);
            var f1, f2 := BaselineTemp(p), ProgressiveTemp(p);
            var r := JpegTran(fs, p, baseline, progressive, isProgressive, now, intr);
            && ((p in fs1 || f1 in fs1 || f2 in fs1) ==>
                  p in r.fs && f1 !in r.fs && f2 !in r.fs && SameOutside(fs, r.fs, {p, f1, f2}))
            && (p !in fs1 && f1 !in fs1 && f2 !in fs1 ==> r == Raised(NotFound(f1), fs1))
  {
    var fs1 := Encoded(fs, p, baseline, progressive, now);
    var f1, f2 := BaselineTemp(p), ProgressiveTemp(p);
    var t := {p, f1, f2};
    if !AllPresent(fs1, p) {
      RecoverCases(fs1, p);
      if Recover(fs1, p).Done? {
        SameOutsideTrans(fs, fs1, Recover(fs1, p).fs, {f1, f2}, t);
      }
    } else {
      var v := Chosen(fs1, p, isProgressive);
      var plan := Plan(v, p, fs1[p].mtime);
      if intr.InterruptAfter? && intr.steps <= |plan| {
        JpegTranInterrupted(fs, p, baseline, progressive, isProgressive, now, intr.steps);
      } else {
        JpegTranReturns(fs, p, baseline, progressive, isProgressive, now);
      }
    }
  }

  /**
    An empty baseline output leaves the file at the path empty: the baseline
    wins, or an empty progressive output beats it, or an empty original is
    kept. The report claims the whole original as saved. smally.py does not
    treat an empty output as a failure.
   */
  lemma EmptyOutputWins(fs: FS, p: Path, progressive: Output, isProgressive: bool, now: Mtime)
    requires p in fs && progressive.Wrote?
    ensures var r := JpegTran(fs, p, Wrote([]), progressive, isProgressive, now, NoInterrupt);
            && r == Returned(Report(-(fs[p].Size() as int), fs[p].Size()), r.fs)
            && p in r.fs && r.fs[p].content == []
  {
    var fs1 := Encoded(fs, p, Wrote([]), progressive, now);
    var f1, f2 := BaselineTemp(p), ProgressiveTemp(p);
    TempNamesDistinct(p);
    assert fs1[f1] == Entry([], now);
    JpegTranReturns(fs, p, Wrote([]), progressive, isProgressive, now);
    var v := Chosen(fs1, p, isProgressive);
    assert WinnerOf(fs1, p, v).Size() == SizeOf(v, fs1[p].Size(), 0, fs1[f2].Size()) == 0;
  }

  /**
    A process killed by a signal runs no handler. Killed right after the
    first removal of a candidate's replace sequence, it leaves no file at
    the path; both candidates are still there for a later handler run.
   */
  lemma KilledAfterFirstRemoval(fs: FS, p: Path, v: Variant, m: Mtime)
    requires AllPresent(fs, p) && v != Original
    ensures var mid := Exec(fs, Plan(v, p, m)[..1]);
            && mid.Done?
            && p !in mid.fs && BaselineTemp(p) in mid.fs && ProgressiveTemp(p) in mid.fs
  {
    TempNamesDistinct(p);
    assert Plan(v, p, m)[..1] == [Remove(p)];
    ExecOne(fs, Remove(p));
  }

  /**
    The handler never runs `touch`. A failure from outside after the original
    is removed but before `touch` leaves the winning candidate exactly as the
    encoder wrote it, with the encoder's mtime instead of the original one.
   */
  lemma InterruptedKeepsEncoderMtime(fs: FS, p: Path, baseline: Output, progressive: Output,
                                     isProgressive: bool, now: Mtime, k: nat)
    requires AllPresent(Encoded(fs, p, baseline, progressive, now), p)
    requires Chosen(Encoded(fs, p, baseline, progressive, now), p, isProgressive) != Original
    requires 1 <= k <= 3
    ensures var fs1 := Encoded(fs, p, baseline, progressive, now);
            var v := Chosen(fs1, p, isProgressive);
            var r := JpegTran(fs, p, baseline, progressive, isProgressive, now, InterruptAfter(k));
            && r.Raised? && p in r.fs
            && r.fs[p] == WinnerOf(fs1, p, v)
            && (baseline.Wrote? && progressive.Wrote? ==> r.fs[p].mtime == now)
  {
    var fs1 := Encoded(fs, p, baseline, progressive, now);
    var v := Chosen(fs1, p, isProgressive);
    CandidatePlanConverges(fs1, p, v, fs1[p].mtime, k);
    TempNamesDistinct(p);
  }

  /**
    A candidate file left over from an earlier run is read as that
    candidate when its encoder writes nothing, and wins when it is the
    smallest: the original is replaced by the stale file.
   */
  lemma StaleProgressiveWins(fs: FS, p: Path, baseline: Output, isProgressive: bool, now: Mtime)
    requires p in fs && ProgressiveTemp(p) in fs && baseline.Wrote?
    requires fs[ProgressiveTemp(p)].Size() < fs[p].Size()
    requires fs[ProgressiveTemp(p)].Size() <= |baseline.bytes|
    ensures var r := JpegTran(fs, p, baseline, NoOutput, isProgressive, now, NoInterrupt);
            && r.Returned? && p in r.fs
            && r.fs[p].content == fs[ProgressiveTemp(p)].content
  {
    TempNamesDistinct(p);
    var fs1 := Encoded(fs, p, baseline, NoOutput, now);
    assert fs1[ProgressiveTemp(p)] == fs[ProgressiveTemp(p)];
    assert fs1[BaselineTemp(p)].content == baseline.bytes;
    JpegTranReturns(fs, p, baseline, NoOutput, isProgressive, now);
  }
}

=== FILE: paths.dfy ===
/**
  Temporary file names used while a file is being compressed.

  A path here is an absolute, normalised file name, so smally.py's
  `wd + '/' + basename` is the path itself and every temporary name is the
  original path followed by a fixed, non-empty suffix.
 */
module Paths {

  type Path = string

  const BaselineSuffix: string := ".smally.baseline"
  const ProgressiveSuffix: string := ".smally.progressive"
  const ChoiceSuffix: string := ".smally"

  /** Output of `jpegtran -optimize` (the baseline candidate). */
  function BaselineTemp(p: Path): Path {
    p + BaselineSuffix
  }

  /** Output of `jpegtran -progressive -optimize`. */
  function ProgressiveTemp(p: Path): Path {
    p + ProgressiveSuffix
  }

  /** Output of the single-candidate tools (optipng, gifsicle). */
  function ChoiceTemp(p: Path): Path {
    p + ChoiceSuffix
  }

  /** No temporary name is the original, and the two JPEG candidates differ. */
  lemma TempNamesDistinct(p: Path)
    ensures BaselineTemp(p) != p && ProgressiveTemp(p) != p && ChoiceTemp(p) != p
    ensures BaselineTemp(p) != ProgressiveTemp(p)
    ensures ChoiceTemp(p) != BaselineTemp(p) && ChoiceTemp(p) != ProgressiveTemp(p)
  {
    TempKindsNeverCollide(p, p);
  }

  /** Temporary names of different kinds never coincide, whatever originals they belong to. */
  lemma TempKindsNeverCollide(p: Path, q: Path)
    ensures BaselineTemp(p) != ProgressiveTemp(q)
    ensures ChoiceTemp(p) != BaselineTemp(q)
    ensures ChoiceTemp(p) != ProgressiveTemp(q)
  {
    if |p| == |q| + 3 {
      // the '.' of ".smally.baseline" sits where ".smally.progressive" has its 'a'
      assert BaselineTemp(p)[|p|] == '.';
      assert ProgressiveTemp(q)[|p|] == 'a';
    }
    // ".smally" ends in 'y', the JPEG suffixes end in 'e'
    var n := |ChoiceTemp(p)|;
    assert ChoiceTemp(p)[n - 1] == 'y';
    if |BaselineTemp(q)| == n {
      assert BaselineTemp(q)[n - 1] == 'e';
    }
    if |ProgressiveTemp(q)| == n {
      assert ProgressiveTemp(q)[n - 1] == 'e';
    }
  }

  /** `p` ends in `s`. */
  predicate EndsWith(p: string, s: string) {
    |s| <= |p| && p[|p| - |s|..] == s
  }

  /** `p` is `q` followed by `s` exactly when `p` ends in `s` and `q` is the rest. */
  lemma AppendedIff(q: string, s: string, p: string)
    ensures q + s == p <==> EndsWith(p, s) && q == p[..|p| - |s|]
  {
    if q + s == p {
      assert p[..|q|] == q && p[|q|..] == s;
    }
    if EndsWith(p, s) && q == p[..|p| - |s|] {
      assert p == p[..|p| - |s|] + p[|p| - |s|..];
    }
  }

  /**
    A path is the temporary name of some original exactly when it ends in
    that kind's suffix, and the original is then the path without it. So
    workers on two originals can only clash when one of them ends in a
    temporary suffix, as a `.smally` file left behind by a killed run does.
   */
  lemma TempNameOf(p: Path, q: Path)
    ensures ChoiceTemp(q) == p <==> EndsWith(p, ChoiceSuffix) && q == p[..|p| - |ChoiceSuffix|]
    ensures BaselineTemp(q) == p <==> EndsWith(p, BaselineSuffix) && q == p[..|p| - |BaselineSuffix|]
    ensures ProgressiveTemp(q) == p <==> EndsWith(p, ProgressiveSuffix) && q == p[..|p| - |ProgressiveSuffix|]
  {
    AppendedIff(q, ChoiceSuffix, p);
    AppendedIff(q, BaselineSuffix, p);
    AppendedIff(q, ProgressiveSuffix, p);
  }

  /** Two different originals never share a temporary name of the same kind. */
  lemma TempNamesInjective(p: Path, q: Path)
    ensures BaselineTemp(p) == BaselineTemp(q) ==> p == q
    ensures ProgressiveTemp(p) == ProgressiveTemp(q) ==> p == q
    ensures ChoiceTemp(p) == ChoiceTemp(q) ==> p == q
  {
    assert BaselineTemp(p)[..|p|] == p && BaselineTemp(q)[..|q|] == q;
    assert ProgressiveTemp(p)[..|p|] == p && ProgressiveTemp(q)[..|q|] == q;
    assert ChoiceTemp(p)[..|p|] == p && ChoiceTemp(q)[..|q|] == q;
  }
}
